=== FILE: README.md ===
# Movie-code bot: catalog, subscriptions and admin decisions

The system is a Telegram bot. Users send a numeric code and get back the
movie video stored under that code. Admins manage the catalog, the
forced-subscription channels, scheduled advertisements and the admin list.
Everything persists in SQLite. This project models three parts of it as pure
Dafny functions over immutable values:

- **`Catalog`** (`database.py`): the bot's store.
  - Movies have integer codes. A new movie gets the smallest positive code
    that no row holds.
  - Deletion is a soft delete, and a view is counted when a video is served.
  - Users are upserted. Channels and admins are sets. Settings are a string
    map.
  - Ads have AUTOINCREMENT ids, modelled by the `adSeq` counter and the
    `Valid` invariant.
- **`Ledger`** (`db.py`): a second, separate store with text movie codes.
  - It seeds default prices and card details without overwriting values that
    already exist.
  - It tracks subscription expiry, failed attempts and a blocked flag for
    each user.
- **Bot decisions** (`bot.py`). Each handler becomes a function from the
  database, the message text and the outside answers to a reply plus the new
  database:
  - `Access`: the `admin_only` gate, the super-admin added at startup,
    `/setadmin`, `/removeadmin`, `/deletemovie` and `/set_force_subscribe`.
  - `Lookup`: the "check subscriptions" callback and the movie-by-code
    handler with its force-subscribe gate.
  - `Ads`: the button-line step and the repeat-count step of the ad wizard,
    `/deletead`, the run date of a scheduled ad and the job's stop rule.
- **`Text`**: the Python string operations these handlers rely on.
  - `str.strip` uses the full whitespace set of `str.isspace`.
  - `isdigit` and `int` are modelled on ASCII digits.
  - `lower` is modelled on ASCII letters.
  - `split("|", 1)` is modelled as a split at the first bar.
- **`Wrappers`**: `Option`.

Several inputs come from outside the database, and the model takes each as a
parameter:

- Telegram's answer for each channel (`member`). It is either a status or
  the fact that the lookup raised.
- Whether sending the video succeeded (`sent`).
- The current time (`now`), counted in seconds.
- The channel listing order (a `seq`).

The bot schedules each ad with a one-shot `date` trigger. So one call of
`Ads.AdJob` is one firing, and `Ads.RunJob` stands for however many firings
happen, for example after restarts.

## Model

| member | source | states |
|---|---|---|
| Text.Strip | bot.py:120 | The result is the input with only whitespace removed from each end, and it neither starts nor ends with whitespace |
| Text.StripUnique | bot.py:237 | Any whitespace-padded reading of the input whose ends are not whitespace is exactly the stripped text, so stripping is determined by those two facts |
| Text.DecimalRoundTrip | bot.py:241 | Reading the decimal digits of a natural number back with `int` gives that number |
| Text.Lower | bot.py:379 | ASCII `lower()`: same length, no capital letter left, each capital replaced by its small letter, every other character kept |
| Text.LowerIdempotent | bot.py:379 | Lower-casing an already lower-cased text changes nothing |
| Text.LowerOn | bot.py:379-380 | A text lower-cases to `on` exactly when it is `on` with either letter in either case |
| Text.LowerOff | bot.py:379-380 | A text lower-cases to `off` exactly when it is `off` with each letter in either case |
| Text.LeadingDigitPositive | bot.py:241 | `int` of digits that do not start with `0` is positive |
| Text.CanonicalRoundTrip | bot.py:241 | For digits without a leading zero, printing `int` of them gives the same digits back, so `int` is one-to-one on them |
| Text.SplitOnce | bot.py:412 | No result exactly when the separator is absent; otherwise the text is `before + sep + after` with no separator in `before` |
| Catalog.EmptyValid | database.py:30-39 | A fresh database meets the AUTOINCREMENT invariant: no ad id exceeds the sequence value |
| Catalog.AddOrUpdateUser | database.py:63-69 | INSERT OR REPLACE: the row is replaced whole with join time `now`, other users are untouched, and the user count grows by one only for a new id |
| Catalog.AddChannel | database.py:84-87 | The channel is present afterwards, no other channel's membership changes, and adding a present channel changes nothing |
| Catalog.RemoveChannel | database.py:89-92 | The channel is absent afterwards, no other channel's membership changes, and removing an absent channel changes nothing |
| Catalog.SetSetting | database.py:101-110 | After the write, `get_setting` of that key returns the value whatever the default; every other key reads as before |
| Catalog.AddAdmin | database.py:113-116 | The id is an admin afterwards, no other id's status changes, and re-adding is a no-op |
| Catalog.RemoveAdmin | database.py:118-127 | The id is not an admin afterwards, no other id's status changes, and removing a non-admin is a no-op |
| Catalog.FirstFreeFrom | database.py:142-149 | The `get_next_code` loop, started where all smaller codes are taken, stops at the least positive code not held, within one more step than there are codes |
| Catalog.NextCode | database.py:136-149 | The allocated code is the unique least positive integer missing from all codes, soft-deleted rows included, and is at most the row count plus one. The code keeps deleted rows in the scan, so the comment at database.py:143 about reusing deleted slots is not what it does; the model follows the code |
| Catalog.AddMovie | database.py:151-159 | The movie is stored at the smallest free code with zero views and not deleted; that code is returned and every existing row is kept |
| Catalog.IncrementViews | database.py:177-180 | The row at the code, deleted or not, gains one view; an absent code changes nothing; no other row changes |
| Catalog.DeleteMovie | database.py:182-186 | Soft delete: only the deleted flag of that row is set, the codes stay the same, and the next allocated code is unchanged |
| Catalog.MoviesCount | database.py:188-192 | The live-movie count never exceeds the number of rows and is 0 for an empty table |
| Catalog.TotalViews | database.py:200-204 | Total views over all rows, deleted ones included; 0 when there are no rows |
| Catalog.AddAd | database.py:207-214 | The ad gets a fresh id above every id ever handed out, is stored with zero sends, keeps every other ad, and preserves the AUTOINCREMENT invariant |
| Catalog.IncrementAdSent | database.py:227-230 | Only that ad's send count grows by one; an absent id changes nothing |
| Catalog.DeleteAd | database.py:222-225 | Only that id leaves the ads table; the sequence value is kept, so the invariant holds |
| Catalog.AddThenGetMovie | database.py:151-175 | `get_movie` at the returned code gives the fresh row, and every other code reads as before |
| Catalog.AddMovieCount | database.py:151-159 | `add_movie` increases `movies_count` by exactly one |
| Catalog.DeleteMovieCount | database.py:182-192 | Deleting a live movie lowers `movies_count` by one; deleting a missing or already-deleted code leaves it |
| Catalog.DeleteMovieIdempotent | database.py:182-186 | A second soft delete of the same code changes nothing |
| Catalog.IncrementViewsCount | database.py:177-192 | Counting a view never changes `movies_count` |
| Catalog.IncrementViewsTotal | database.py:177-204 | A view on an existing row raises `total_views` by exactly one; on a missing code it changes nothing |
| Catalog.DeleteMovieTotal | database.py:182-204 | Soft delete leaves `total_views` unchanged |
| Catalog.AddMovieTotal | database.py:151-204 | A new movie leaves `total_views` unchanged |
| Catalog.CodesNeverReused | database.py:142-186 | After adding a movie and soft-deleting it, the next `add_movie` does not hand out that code again |
| Catalog.AdIdsNeverReused | database.py:30-31 | After `delete_ad` of an id, the next `add_ad` does not return that id, and neither does any `add_ad` in any later run of ad writes (`Catalog.AdRun`) |
| Catalog.AdRun | database.py:207-230 | Any sequence of `add_ad`, `delete_ad` and `increment_ad_sent` keeps the AUTOINCREMENT invariant, never lowers the sequence value, and hands out strictly increasing ids, all above the starting sequence value |
| Catalog.AdIdsStayRetired | database.py:30-31 | An id at most the sequence value is never returned by any later `add_ad` and stays at most the sequence value |
| Ledger.InsertOrIgnore | db.py:42-51 | INSERT OR IGNORE of the defaults: existing keys keep their values, missing listed keys get their defaults, and no other key appears |
| Ledger.Init | db.py:6-53 | `init` keeps every existing setting and row, seeds exactly the missing default keys, and adds no other key |
| Ledger.InitIdempotent | db.py:6-53 | Running `init` a second time changes nothing |
| Ledger.InitFresh | db.py:42-51 | On an empty store, `init` leaves exactly the six listed keys, e.g. `price_1m` = 35000 and the listed card holder |
| Ledger.DefaultListed | db.py:43-50 | A key that has a default is one of the listed pairs |
| Ledger.DefaultFound | db.py:43-50 | Every listed key has a default |
| Ledger.AddAdmin | db.py:62-65 | INSERT OR IGNORE of an admin: present afterwards, others unchanged, no-op when present |
| Ledger.AddUser | db.py:68-74 | INSERT OR IGNORE: an existing user is left exactly as is; a new one joins at `now` with no subscription, no failures and not blocked |
| Ledger.SetSubscription | db.py:90-98 | The expiry becomes `now + days` days whatever it was, failures and the blocked flag are cleared, and an unknown user matches no row |
| Ledger.IncFailed | db.py:135-143 | The failure count grows by one, and the user is blocked iff already blocked or the new count reaches 3; unknown users are untouched |
| Ledger.FailuresBlockAtThreshold | db.py:135-143 | From a clean user, `n` failures leave the count at `n` and block the user exactly when `n >= 3` |
| Ledger.SubscriptionUnblocks | db.py:90-98 | A user blocked by three failures is unblocked, with zero failures, by `set_subscription` |
| Ledger.ActiveAfterSubscription | db.py:77-98 | After `set_subscription`, the user is active at time `t` iff the user exists and `t` is before `now + days` days |
| Ledger.NoSubscriptionInactive | db.py:77-87 | An unknown user, or one with a NULL expiry, never has an active subscription |
| Ledger.NewUserInactive | db.py:68-87 | A user just created by `add_user` has no active subscription at any time |
| Ledger.AddMovie | db.py:101-120 | Returns true iff the code is free and a `file_id` is given; on false nothing changes; on true the row holds the submitted fields, the admin and `now` |
| Ledger.DuplicateCodeKeepsMovie | db.py:101-126 | Adding under a taken code returns false and `get_movie` still gives the original row |
| Access.Startup | bot.py:534-538 | After startup the super-admin is in the admins table, no other id's admin status changes, and no other table changes |
| Access.SetAdmin | bot.py:316-329 | Exactly the non-admins are refused; usage exactly for a privileged caller with a non-digit argument; the super-admin refusal exactly when the id is the super-admin; otherwise the id is added; only the admins table can change |
| Access.RemoveAdmin | bot.py:331-344 | Exactly the non-admins are refused; usage exactly for a privileged caller with a non-digit argument; the super-admin refusal exactly when the id is the super-admin; otherwise only that id is removed, so the super-admin row survives |
| Access.DeleteMovie | bot.py:233-247 | Exactly the non-admins are refused; usage exactly for a privileged caller with a non-digit argument; "no such code" exactly when no row has it; otherwise, iff the row exists, it is soft-deleted and nothing else changes |
| Access.SetForceSubscribe | bot.py:375-384 | Exactly the non-admins are refused; for a privileged caller, usage exactly when the stripped, lower-cased argument is neither `on` nor `off`, and otherwise that value is written and `get_setting` then returns it |
| Access.PaddedIdExample | bot.py:237-241 | Illustration on one input: ` 42\n` is accepted as the id 42 |
| Access.LeadingZerosExample | bot.py:237-241 | Illustration on one input: `007` is accepted as the id 7 |
| Access.InnerSpaceExample | bot.py:237-238 | Illustration on one input: `4 2` is refused as an id |
| Access.SignExample | bot.py:237-238 | Illustration on one input: `-1` is refused as an id |
| Access.BlankExample | bot.py:237-238 | Illustration on one input: Blank text is refused as an id |
| Access.ForceSubscribeSpellings | bot.py:378-383 | For a privileged caller, the setting becomes `on` exactly when the stripped argument is `on` in any mix of cases, and `off` likewise |
| Access.ForceSubscribeExample | bot.py:378-383 | Illustration on one input: ` ON ` switches force-subscribe on, and the setting then reads `on` |
| Access.SuperAdminPersists | bot.py:316-344 | After startup, no sequence of `/setadmin` and `/removeadmin` commands from anyone removes the super-admin row |
| Access.StaysAdmin | bot.py:331-344 | Once the super-admin is listed, any command sequence keeps it listed |
| Access.OutsidersChangeNothing | bot.py:173-181 | Admin-table commands from callers who are neither the super-admin nor admins leave the database unchanged |
| Lookup.NotSubscribed | bot.py:99-109 | The missing channels keep listing order and are exactly the listed channels whose status is `left` or `kicked` or whose lookup raised, each as often as it is listed |
| Lookup.CheckSubs | bot.py:93-117 | No channels is reported as such; otherwise the user passes iff no channel is unsatisfied, and a failure lists exactly the missing channels |
| Lookup.GateScan | bot.py:135-152 | The channel loop with its early return stops with the prompt exactly when some listed channel is unsatisfied |
| Lookup.GateBlocksIsScan | bot.py:130-152 | Over the channel listing, the gate used by the lookup blocks exactly when the setting reads `on` and the loop stops at some channel |
| Lookup.CheckSubsMatchesGate | bot.py:93-117 | Over the channel listing, the callback says all joined exactly when a channel is configured and none is unsatisfied, and then the lookup's gate does not block |
| Lookup.MovieByCode | bot.py:120-170 | Each reply is given exactly in its case: not handled iff the stripped text is not all digits; not found iff no live movie has the code; the prompt iff the gate blocks; a send error iff the gate passes and the send fails; sent iff it succeeds, and only then is one view counted |
| Lookup.NotFoundFirst | bot.py:124-127 | A missing or deleted movie is reported before any channel check or send, whatever their outcomes |
| Lookup.GateOnlyWhenOn | bot.py:130-133 | With force-subscribe not `on`, or no channels, channel memberships do not affect the outcome |
| Lookup.ViewsCountedOnce | bot.py:162-170 | A served code gains exactly one view and total views rise by one; any other outcome leaves total views unchanged |
| Ads.AdButton | bot.py:409-418 | A line without a bar means ask again; otherwise the button text and URL are the stripped parts before and after the first bar |
| Ads.ButtonSplitUnique | bot.py:412 | A button line has only one split at its first bar |
| Ads.BarAt | bot.py:412 | In a split, the bar sits right after the text before it, and no earlier bar exists |
| Ads.AdRepeat | bot.py:436-455 | A reply that is not all digits, unstripped, asks again with nothing stored; otherwise a fresh ad is stored with that repeat count and zero sends, every other ad is kept and no other table changes |
| Ads.DeleteAdCommand | bot.py:471-486 | Exactly the non-admins are refused; a privileged caller without a digit id is asked for one; the ad is deleted iff a privileged caller gives a digit id, and only that id is removed |
| Ads.RunDate | bot.py:518-529 | The run date is after `now` and never before the stored time; it is the stored time iff that is still ahead, else five seconds from now |
| Ads.AdJob | bot.py:491-515 | One firing does nothing if the ad is gone, stops once sends reach the repeat count, and otherwise broadcasts and counts one send |
| Ads.BroadcastsStopAtRepeat | bot.py:491-515 | However many firings happen, the ad goes out `min(firings, max(0, repeat_count - times_sent))` times, each recorded, and no other ad changes |

## Left out

- SQLite, `aiosqlite`, connections, commits and the `asyncio.Lock` are not modelled. Each method is one atomic step on an immutable value.
- Concurrency between handlers is not modelled. Handlers run one at a time.
- Catalog.AdRun: covers only writes to the `ads` table; every other `Catalog` write keeps `ads` and `adSeq` by its frame clause, so interleaving those changes nothing about ad ids.
- Telegram I/O is left out: sending messages, keyboards, photos and videos. Only the outcomes that change the database are inputs (`member`, `sent`).
- The broadcast loops of the ad job and of `/msgall` are not modelled. A failed delivery to one user does not change the database.
- The scheduler and the removal of a job are not modelled. `/deletead` deletes the row, and a later firing then finds no ad.
- `datetime.fromisoformat`, ISO strings and the timezone difference are not modelled. `add_user` stamps UTC, while `has_active_sub` and `set_subscription` use local time. Times are one integer clock in seconds.
- Text.IsDigits: Python's `isdigit` also accepts non-ASCII digits, and `int` rejects some of those. Only ASCII digits are modelled.
- Text.Lower: only ASCII letters are lower-cased. No other character lower-cases to `o`, `n` or `f`, so the `on`/`off` decision is unaffected.
- `list_channels`, `list_admins`, `list_ads`, `all_movies` and `all_user_ids` are plain reads. The row order SQLite returns becomes the `seq` given to `Lookup.CheckSubs`.
- `count_users` is the size of the users map (`Catalog.CountUsers`). It is used in `Catalog.AddOrUpdateUser`'s contract and gets no row of its own.
- The remaining handlers are not part of this model: `cmd_start`, `/admin`, `/msgall`, `/msguser`, `/setchannels`, `/listads`, the other add-movie and add-ad wizard steps, and the error reporter. Their effects go through the modelled database operations.
- `main.py`, `states.py`, `config.py` and `setup.py` are not part of this model. The configured super-admin (`config.py:9`) is the parameter `mainAdmin`.
- SQLite's 64-bit integer limit on codes, ids, views and counters is not modelled. All of these are unbounded.
- A NULL `repeat_count` is not modelled. The bot always stores a number.
- A missing `title` or `file_id` key in `db.add_movie`'s `data` raises `KeyError` and is not modelled. A `file_id` of `None` is modelled: it fails the NOT NULL constraint, and the call returns `false`.
- `Catalog.AddMovie` takes text fields that are never NULL, because the bot always supplies them. The NOT NULL failures of `database.py` therefore cannot arise.
- `Catalog.MoviesCount` and `Catalog.TotalViews` have contracts only for bounds and the empty case. Their behaviour under each update is stated by the `...Count` and `...Total` lemmas.
- Catalog.GetMovie, Catalog.GetAd, Catalog.GetSetting, Catalog.IsAdmin and their `Ledger` counterparts are plain reads of one row, or of the default, with no contract of their own. What they return after each update is stated by the update's contract and by Catalog.AddThenGetMovie and Ledger.DuplicateCodeKeepsMovie.
- Ledger.HasActiveSub is a plain definition of `has_active_sub` with no contract of its own. Ledger.ActiveAfterSubscription, Ledger.NoSubscriptionInactive and Ledger.NewUserInactive state its behaviour.
- Text.IsDigits and Text.DigitsValue are plain definitions of `isdigit` and `int` with no contract of their own. Text.DecimalRoundTrip and Text.CanonicalRoundTrip state what `int` computes.
- Lookup.GateBlocks states the gate of `movie_by_code` as "some configured channel is unsatisfied" rather than as a loop. Lookup.GateBlocksIsScan proves this equals the loop with its early return, Lookup.GateScan, over the channel listing.
- Access.IsPrivileged is a plain definition of the `admin_only` test (bot.py:177), with no contract of its own. The refusal clauses of Access.SetAdmin, Access.RemoveAdmin, Access.DeleteMovie, Access.SetForceSubscribe and Ads.DeleteAdCommand, and Access.OutsidersChangeNothing, state its behaviour.
- Access.IdArgument and Access.IdValue are plain definitions of `args.strip().isdigit()` and `int(args)`, with no contract of their own. Text.Strip, Text.StripUnique and Text.CanonicalRoundTrip state their behaviour, and the examples PaddedIdExample, LeadingZerosExample, InnerSpaceExample, SignExample and BlankExample illustrate it on single inputs.
- Lookup.Unsatisfied is a plain definition of the membership test of bot.py:105-109 and bot.py:138-152, with no contract of its own. Lookup.NotSubscribed, Lookup.GateScan and Lookup.CheckSubsMatchesGate state its behaviour.
- Lookup.Servable is a plain definition of the `if not movie or movie["is_deleted"]` test of bot.py:125, with no contract of its own. Lookup.MovieByCode's not-found clause and Lookup.NotFoundFirst state its behaviour.

=== FILE: access.dfy ===
/**
  Admin-side decisions of the bot (`bot.py`): the `admin_only` gate, the
  super-admin inserted at startup, and the admin commands whose argument
  checks decide whether the database changes: `/setadmin`, `/removeadmin`,
  `/deletemovie` and `/set_force_subscribe`. `mainAdmin` is the configured
  super-admin id.
*/
module Access {
  import Text
  import Catalog

  /** `admin_only`: the wrapped handler runs for the super-admin or a listed admin. */
  predicate IsPrivileged(t: Catalog.Tables, mainAdmin: int, uid: int)
  {
    uid == mainAdmin || Catalog.IsAdmin(t, uid)
  }

  /** What a command replies; `Denied` is the `admin_only` refusal. */
  datatype Reply =
    | Denied
    | Usage
    | IsSuperAdmin
    | AdminAdded(uid: int)
    | AdminRemoved(uid: int)
    | NoSuchMovie
    | MovieDeleted(code: int)
    | ForceSubscribe(value: string)

  /** A command's reply together with the database it leaves behind. */
  datatype Outcome = Outcome(reply: Reply, tables: Catalog.Tables)

  /** The argument check the id-taking commands share: a stripped, all-digit argument. */
  predicate IdArgument(args: string)
  {
    Text.IsDigits(Text.Strip(args))
  }

  function IdValue(args: string): nat
    requires IdArgument(args)
  {
    Text.DigitsValue(Text.Strip(args))
  }

  /** `on_startup`: `init_db` keeps existing rows, then the super-admin is inserted. */
  function Startup(t: Catalog.Tables, mainAdmin: int): (r: Catalog.Tables)
    ensures Catalog.IsAdmin(r, mainAdmin)
    ensures forall u :: u != mainAdmin ==> (Catalog.IsAdmin(r, u) <==> Catalog.IsAdmin(t, u))
    ensures r == t.(admins := r.admins)
  {
    Catalog.AddAdmin(t, mainAdmin)
  }

  /**
    `/setadmin <user_id>`: refused to non-admins; a non-digit argument gets
    the usage text; the super-admin id is refused; otherwise that id is
    added. Only the admins table can change, and only by gaining that id.
  */
  function SetAdmin(t: Catalog.Tables, mainAdmin: int, caller: int, args: string): (r: Outcome)
    ensures !IsPrivileged(t, mainAdmin, caller) ==> r == Outcome(Denied, t)
    ensures r.reply == Denied <==> !IsPrivileged(t, mainAdmin, caller)
    ensures IsPrivileged(t, mainAdmin, caller) && !IdArgument(args) ==> r == Outcome(Usage, t)
    ensures r.reply == Usage <==> IsPrivileged(t, mainAdmin, caller) && !IdArgument(args)
    ensures r.reply == IsSuperAdmin <==>
              IsPrivileged(t, mainAdmin, caller) && IdArgument(args) && IdValue(args) == mainAdmin
    ensures r.reply.AdminAdded? <==> IsPrivileged(t, mainAdmin, caller) && IdArgument(args) && IdValue(args) != mainAdmin
    ensures r.reply.AdminAdded? ==> r.reply.uid == IdValue(args) && r.tables == Catalog.AddAdmin(t, r.reply.uid)
    ensures !r.reply.AdminAdded? ==> r.tables == t
    ensures r.tables == t.(admins := r.tables.admins) && t.admins <= r.tables.admins
  {
    if !IsPrivileged(t, mainAdmin, caller) then Outcome(Denied, t)
    else if !IdArgument(args) then Outcome(Usage, t)
    else
      var uid := IdValue(args);
      if uid == mainAdmin then Outcome(IsSuperAdmin, t)
      else Outcome(AdminAdded(uid), Catalog.AddAdmin(t, uid))
  }

  /**
    `/removeadmin <user_id>`: refused to non-admins; a non-digit argument gets
    the usage text; the super-admin id is refused, so the super-admin row is
    never removed; otherwise only that id leaves the admins table.
  */
  function RemoveAdmin(t: Catalog.Tables, mainAdmin: int, caller: int, args: string): (r: Outcome)
    ensures !IsPrivileged(t, mainAdmin, caller) ==> r == Outcome(Denied, t)
    ensures r.reply == Denied <==> !IsPrivileged(t, mainAdmin, caller)
    ensures IsPrivileged(t, mainAdmin, caller) && !IdArgument(args) ==> r == Outcome(Usage, t)
    ensures r.reply == Usage <==> IsPrivileged(t, mainAdmin, caller) && !IdArgument(args)
    ensures r.reply == IsSuperAdmin <==>
              IsPrivileged(t, mainAdmin, caller) && IdArgument(args) && IdValue(args) == mainAdmin
    ensures r.reply.AdminRemoved? <==> IsPrivileged(t, mainAdmin, caller) && IdArgument(args) && IdValue(args) != mainAdmin
    ensures r.reply.AdminRemoved? ==> r.reply.uid == IdValue(args) && r.tables == Catalog.RemoveAdmin(t, r.reply.uid)
    ensures !r.reply.AdminRemoved? ==> r.tables == t
    ensures Catalog.IsAdmin(t, mainAdmin) ==> Catalog.IsAdmin(r.tables, mainAdmin)
    ensures r.tables == t.(admins := r.tables.admins) && r.tables.admins <= t.admins
  {
    if !IsPrivileged(t, mainAdmin, caller) then Outcome(Denied, t)
    else if !IdArgument(args) then Outcome(Usage, t)
    else
      var uid := IdValue(args);
      if uid == mainAdmin then Outcome(IsSuperAdmin, t)
      else Outcome(AdminRemoved(uid), Catalog.RemoveAdmin(t, uid))
  }

  /**
    `/deletemovie <code>`: refused to non-admins; a non-digit argument gets
    the usage text; a code with no row is reported; otherwise the row is
    soft-deleted. A row that is already soft-deleted still exists, so it is
    reported deleted again.
  */
  function DeleteMovie(t: Catalog.Tables, mainAdmin: int, caller: int, args: string): (r: Outcome)
    ensures !IsPrivileged(t, mainAdmin, caller) ==> r == Outcome(Denied, t)
    ensures r.reply == Denied <==> !IsPrivileged(t, mainAdmin, caller)
    ensures IsPrivileged(t, mainAdmin, caller) && !IdArgument(args) ==> r == Outcome(Usage, t)
    ensures r.reply == Usage <==> IsPrivileged(t, mainAdmin, caller) && !IdArgument(args)
    ensures r.reply == NoSuchMovie <==>
              IsPrivileged(t, mainAdmin, caller) && IdArgument(args) && IdValue(args) !in t.movies
    ensures r.reply.MovieDeleted? <==>
              IsPrivileged(t, mainAdmin, caller) && IdArgument(args) && IdValue(args) in t.movies
    ensures r.reply.MovieDeleted? ==>
              r.reply.code == IdValue(args) && r.tables == Catalog.DeleteMovie(t, r.reply.code)
    ensures !r.reply.MovieDeleted? ==> r.tables == t
  {
    if !IsPrivileged(t, mainAdmin, caller) then Outcome(Denied, t)
    else if !IdArgument(args) then Outcome(Usage, t)
    else
      var code := IdValue(args);
      match Catalog.GetMovie(t, code)
      case None => Outcome(NoSuchMovie, t)
      case Some(_) => Outcome(MovieDeleted(code), Catalog.DeleteMovie(t, code))
  }

  /** The setting key `/set_force_subscribe` writes and the lookup handlers read. */
  const ForceKey: string := "force_subscribe"

  /**
    `/set_force_subscribe on|off`: the argument is stripped, then lower-cased;
    only `on` and `off` are accepted, and the accepted value is what a later
    `get_setting` returns. Anything else leaves the database as it was.
  */
  function SetForceSubscribe(t: Catalog.Tables, mainAdmin: int, caller: int, args: string): (r: Outcome)
    ensures !IsPrivileged(t, mainAdmin, caller) ==> r == Outcome(Denied, t)
    ensures r.reply == Denied <==> !IsPrivileged(t, mainAdmin, caller)
    ensures r.reply.ForceSubscribe? <==>
              IsPrivileged(t, mainAdmin, caller) && Text.Lower(Text.Strip(args)) in {"on", "off"}
    ensures r.reply == Usage <==>
              IsPrivileged(t, mainAdmin, caller) && Text.Lower(Text.Strip(args)) !in {"on", "off"}
    ensures r.reply.ForceSubscribe? ==>
              r.reply.value == Text.Lower(Text.Strip(args))
              && forall d :: Catalog.GetSetting(r.tables, ForceKey, d) == r.reply.value
    ensures r.reply.ForceSubscribe? ==> r.tables == Catalog.SetSetting(t, ForceKey, r.reply.value)
    ensures !r.reply.ForceSubscribe? ==> r.tables == t
  {
    if !IsPrivileged(t, mainAdmin, caller) then Outcome(Denied, t)
    else
      var a := Text.Lower(Text.Strip(args));
      if a != "on" && a != "off" then Outcome(Usage, t)
      else Outcome(ForceSubscribe(a), Catalog.SetSetting(t, ForceKey, a))
  }

  /** Whitespace around an id is ignored: ` 42\n` is the id 42. */
  lemma PaddedIdExample()
    ensures IdArgument(" 42\n") && IdValue(" 42\n") == 42
  {
    Text.StripUnique(" 42\n", "42", 1);
    assert Text.Strip(" 42\n") == "42";
    assert "42"[..1] == "4";
    assert Text.DigitsValue("4") == 4;
  }

  /** Leading zeros are digits like any other: `007` is the id 7. */
  lemma LeadingZerosExample()
    ensures IdArgument("007") && IdValue("007") == 7
  {
    Text.StripUnique("007", "007", 0);
    assert Text.Strip("007") == "007";
    assert Text.IsDigits("007");
    assert "007"[..2] == "00" && "00"[..1] == "0";
    assert Text.DigitsValue("0") == 0;
    assert Text.DigitsValue("00") == 0;
  }

  /** An inner space is not stripped, so `4 2` is no id. */
  lemma InnerSpaceExample()
    ensures !IdArgument("4 2")
  {
    Text.StripUnique("4 2", "4 2", 0);
    assert Text.Strip("4 2") == "4 2";
    assert !Text.IsDigit("4 2"[1]);
  }

  /** A sign is not a digit, so `-1` is no id. */
  lemma SignExample()
    ensures !IdArgument("-1")
  {
    Text.StripUnique("-1", "-1", 0);
    assert Text.Strip("-1") == "-1";
    assert !Text.IsDigit("-1"[0]);
  }

  /** Blank text strips to nothing, and nothing is no id. */
  lemma BlankExample()
    ensures !IdArgument("   ")
  {
    Text.StripUnique("   ", "", 0);
    assert Text.Strip("   ") == "";
  }

  /** ` ON ` switches the gate on: the value is stripped and lower-cased first. */
  lemma ForceSubscribeExample(t: Catalog.Tables, mainAdmin: int)
    ensures SetForceSubscribe(t, mainAdmin, mainAdmin, " ON ").reply == ForceSubscribe("on")
    ensures Catalog.GetSetting(SetForceSubscribe(t, mainAdmin, mainAdmin, " ON ").tables, ForceKey, "off") == "on"
  {
    Text.StripUnique(" ON ", "ON", 1);
    assert Text.Strip(" ON ") == "ON";
    Text.LowerOn("ON");
  }

  /**
    A privileged caller switches force-subscribe on exactly with `on` in any
    mix of cases, and off exactly with `off` in any mix of cases, once the
    surrounding whitespace is stripped.
  */
  lemma ForceSubscribeSpellings(t: Catalog.Tables, mainAdmin: int, caller: int, args: string)
    requires IsPrivileged(t, mainAdmin, caller)
    ensures var a := Text.Strip(args);
            SetForceSubscribe(t, mainAdmin, caller, args).reply == ForceSubscribe("on") <==>
              |a| == 2 && (a[0] == 'o' || a[0] == 'O') && (a[1] == 'n' || a[1] == 'N')
    ensures var a := Text.Strip(args);
            SetForceSubscribe(t, mainAdmin, caller, args).reply == ForceSubscribe("off") <==>
              |a| == 3 && (a[0] == 'o' || a[0] == 'O') && (a[1] == 'f' || a[1] == 'F') && (a[2] == 'f' || a[2] == 'F')
  {
    Text.LowerOn(Text.Strip(args));
    Text.LowerOff(Text.Strip(args));
  }

  /** The admin-table commands, as a session of them would arrive. */
  datatype AdminCommand = SetAdminCmd(caller: int, args: string) | RemoveAdminCmd(caller: int, args: string)

  function Run(t: Catalog.Tables, mainAdmin: int, cmds: seq<AdminCommand>): Catalog.Tables
    decreases |cmds|
  {
    if cmds == [] then t
    else
      var next := match cmds[0]
        case SetAdminCmd(c, a) => SetAdmin(t, mainAdmin, c, a).tables
        case RemoveAdminCmd(c, a) => RemoveAdmin(t, mainAdmin, c, a).tables;
      Run(next, mainAdmin, cmds[1..])
  }

  /**
    Once startup has inserted the super-admin, no sequence of `/setadmin` and
    `/removeadmin` commands, from anyone, takes that row away.
  */
  lemma {:induction false} SuperAdminPersists(t: Catalog.Tables, mainAdmin: int, cmds: seq<AdminCommand>)
    ensures Catalog.IsAdmin(Run(Startup(t, mainAdmin), mainAdmin, cmds), mainAdmin)
  {
    StaysAdmin(Startup(t, mainAdmin), mainAdmin, cmds);
  }

  lemma {:induction false} StaysAdmin(t: Catalog.Tables, mainAdmin: int, cmds: seq<AdminCommand>)
    requires Catalog.IsAdmin(t, mainAdmin)
    ensures Catalog.IsAdmin(Run(t, mainAdmin, cmds), mainAdmin)
    decreases |cmds|
  {
    if cmds != [] {
      var next := match cmds[0]
        case SetAdminCmd(c, a) => SetAdmin(t, mainAdmin, c, a).tables
        case RemoveAdminCmd(c, a) => RemoveAdmin(t, mainAdmin, c, a).tables;
      StaysAdmin(next, mainAdmin, cmds[1..]);
    }
  }

  /** Commands from a caller who is neither the super-admin nor an admin change nothing. */
  lemma {:induction false} OutsidersChangeNothing(t: Catalog.Tables, mainAdmin: int, cmds: seq<AdminCommand>)
    requires forall i :: 0 <= i < |cmds| ==> !IsPrivileged(t, mainAdmin, cmds[i].caller)
    ensures Run(t, mainAdmin, cmds) == t
    decreases |cmds|
  {
    if cmds != [] {
      OutsidersChangeNothing(t, mainAdmin, cmds[1..]);
    }
  }
}

=== FILE: ads.dfy ===
/**
  The scheduled-ad decisions of the bot (`bot.py`): the button-line check of
  the ad wizard, the repeat-count step that stores the ad, `/deletead`, the
  run date chosen when an ad is scheduled, and the job's stop rule. The
  scheduler itself and the broadcast loop are outside the model: one run of
  the job is one call of `AdJob`.
*/
module Ads {
  import opened Wrappers
  import Text
  import Catalog
  import Access

  /** Delay, in clock units (seconds), for an ad whose time has already passed. */
  const LateDelay: nat := 5

  /** The button line `Text|url` is split at its first bar. */
  ghost predicate ButtonSplit(line: string, before: string, after: string)
  {
    line == before + ['|'] + after && '|' !in before
  }

  /**
    `ad_button`: without a `|` the wizard asks again; otherwise the text
    before the first bar and everything after it, each stripped, become the
    button text and URL (either may end up empty).
  */
  function AdButton(line: string): (r: Option<(string, string)>)
    ensures r.None? <==> '|' !in line
    ensures r.Some? ==> exists a, b :: ButtonSplit(line, a, b) && r.value == (Text.Strip(a), Text.Strip(b))
  {
    match Text.SplitOnce(line, '|')
    case None => None
    case Some((a, b)) =>
      assert ButtonSplit(line, a, b);
      Some((Text.Strip(a), Text.Strip(b)))
  }

  /** Only the first bar splits: a button line has one way to be read. */
  lemma ButtonSplitUnique(line: string, a: string, b: string, a': string, b': string)
    requires ButtonSplit(line, a, b) && ButtonSplit(line, a', b')
    ensures a == a' && b == b'
  {
    BarAt(line, a, b);
    BarAt(line, a', b');
    assert |a| == |a'|;
    assert a == line[..|a|] == a';
    assert b == line[|a| + 1..] == b';
  }

  /** In a split, the bar sits right after `before`, and none comes earlier. */
  lemma BarAt(line: string, before: string, after: string)
    requires ButtonSplit(line, before, after)
    ensures |before| < |line| && line[|before|] == '|'
    ensures forall k :: 0 <= k < |before| ==> line[k] != '|'
  {
    assert forall k :: 0 <= k < |before| ==> line[k] == before[k];
  }

  /** What the earlier wizard steps collected for one ad. */
  datatype Draft = Draft(imageFileId: string, text: string, buttonText: string, buttonUrl: string,
                         scheduleTime: int)

  datatype RepeatReply = AskNumber | AdStored(id: int)

  /**
    `ad_repeat`: the reply must be all digits as sent (it is not stripped);
    then the ad is stored with that repeat count and nothing sent yet.
  */
  function AdRepeat(t: Catalog.Tables, draft: Draft, line: string): (r: (RepeatReply, Catalog.Tables))
    requires Catalog.Valid(t)
    ensures Catalog.Valid(r.1)
    ensures r.0 == AskNumber <==> !Text.IsDigits(line)
    ensures r.0 == AskNumber ==> r.1 == t
    ensures r.0.AdStored? ==>
              r.0.id !in t.ads && r.0.id in r.1.ads
              && r.1.ads[r.0.id] == Catalog.Ad(draft.imageFileId, draft.text, draft.buttonText, draft.buttonUrl,
                                               draft.scheduleTime, Text.DigitsValue(line), 0)
    ensures r.0.AdStored? ==>
              && r.1.ads.Keys == t.ads.Keys + {r.0.id}
              && (forall a :: a in t.ads ==> r.1.ads[a] == t.ads[a])
              && r.1 == t.(ads := r.1.ads, adSeq := r.1.adSeq)
  {
    if !Text.IsDigits(line) then (AskNumber, t)
    else
      var (t', id) := Catalog.AddAd(t, draft.imageFileId, draft.text, draft.buttonText, draft.buttonUrl,
                                    draft.scheduleTime, Text.DigitsValue(line));
      (AdStored(id), t')
  }

  datatype DeleteReply = Refused | AskId | AdDeleted(id: int)

  /**
    `/deletead <id>`: the `admin_only` refusal goes exactly to unprivileged
    callers; a privileged caller without a stripped all-digit id is asked for
    one; otherwise `delete_ad` of that id.
  */
  function DeleteAdCommand(t: Catalog.Tables, mainAdmin: int, caller: int, args: string): (r: (DeleteReply, Catalog.Tables))
    ensures !Access.IsPrivileged(t, mainAdmin, caller) ==> r == (Refused, t)
    ensures r.0 == Refused <==> !Access.IsPrivileged(t, mainAdmin, caller)
    ensures r.0 == AskId <==> Access.IsPrivileged(t, mainAdmin, caller) && !Access.IdArgument(args)
    ensures r.0.AdDeleted? <==> Access.IsPrivileged(t, mainAdmin, caller) && Access.IdArgument(args)
    ensures r.0.AdDeleted? ==> r.0.id == Access.IdValue(args) && r.1 == Catalog.DeleteAd(t, r.0.id)
    ensures !r.0.AdDeleted? ==> r.1 == t
  {
    if !Access.IsPrivileged(t, mainAdmin, caller) then (Refused, t)
    else if !Access.IdArgument(args) then (AskId, t)
    else
      var id := Access.IdValue(args);
      (AdDeleted(id), Catalog.DeleteAd(t, id))
  }

  /**
    The `run_date` of `schedule_future`: the stored time while it is still
    ahead of `now`, otherwise five seconds from now. Either way the job runs
    after `now` and never before its stored time; a time already past is
    replaced by exactly five seconds after `now`.
  */
  function RunDate(scheduled: int, now: int): (r: int)
    ensures r > now && r >= scheduled
    ensures r == scheduled <==> scheduled > now
    ensures r == scheduled || r == now + LateDelay
  {
    if scheduled > now then scheduled else now + LateDelay
  }

  datatype JobStep = AdGone | Finished | Broadcast

  datatype JobOutcome = JobOutcome(step: JobStep, tables: Catalog.Tables)

  /**
    One run of the ad job: nothing when the ad is gone; nothing, and the job
    is dropped, once `times_sent >= repeat_count`; otherwise one broadcast
    followed by `increment_ad_sent`.
  */
  function AdJob(t: Catalog.Tables, id: int): (r: JobOutcome)
    ensures r.step == AdGone <==> id !in t.ads
    ensures r.step == Broadcast <==> id in t.ads && t.ads[id].timesSent < t.ads[id].repeatCount
    ensures r.step == Broadcast ==> r.tables == Catalog.IncrementAdSent(t, id)
    ensures r.step != Broadcast ==> r.tables == t
  {
    match Catalog.GetAd(t, id)
    case None => JobOutcome(AdGone, t)
    case Some(ad) =>
      if ad.timesSent >= ad.repeatCount then JobOutcome(Finished, t)
      else JobOutcome(Broadcast, Catalog.IncrementAdSent(t, id))
  }

  /** `n` runs of the job for one ad, with the number of broadcasts they made. */
  function RunJob(t: Catalog.Tables, id: int, n: nat): (Catalog.Tables, nat)
    decreases n
  {
    if n == 0 then (t, 0)
    else
      var (t1, k) := RunJob(t, id, n - 1);
      var o := AdJob(t1, id);
      (o.tables, k + if o.step == Broadcast then 1 else 0)
  }

  /** Broadcasts an ad still owes: how far `times_sent` is below `repeat_count`. */
  function Owed(ad: Catalog.Ad): nat
  {
    if ad.timesSent < ad.repeatCount then ad.repeatCount - ad.timesSent else 0
  }

  function Min(a: nat, b: nat): nat
  {
    if a <= b then a else b
  }

  /**
    However often the job runs, the ad goes out only as many more times as it
    is owed: `n` runs make `min(n, owed)` broadcasts, each recorded in
    `times_sent`, and no other ad changes.
  */
  lemma {:induction false} BroadcastsStopAtRepeat(t: Catalog.Tables, id: int, n: nat)
    requires id in t.ads
    ensures var (t', k) := RunJob(t, id, n);
            && k == Min(n, Owed(t.ads[id]))
            && t'.ads.Keys == t.ads.Keys
            && t'.ads[id] == t.ads[id].(timesSent := t.ads[id].timesSent + k)
            && (forall a :: a in t.ads && a != id ==> t'.ads[a] == t.ads[a])
            && t' == t.(ads := t'.ads)
    decreases n
  {
    if n > 0 {
      BroadcastsStopAtRepeat(t, id, n - 1);
    }
  }
}

=== FILE: catalog.dfy ===
/**
  The SQLite store behind the bot (`database.py`): users, movies keyed by an
  integer code with soft delete and a view counter, forced-subscription
  channels, scheduled ads, admins and string settings. Each table is an
  immutable map or set, and each method of the `Database` class is a pure
  transition from one `Tables` value to the next.
*/
module Catalog {
  import opened Wrappers

  /** A `users` row. `joinedDate` is the UTC clock reading of the last upsert. */
  datatype User = User(username: string, fullname: string, joinedDate: int)

  /** A `movies` row; `isDeleted` is the 0/1 soft-delete column. */
  datatype Movie = Movie(title: string, format: string, language: string, fileId: string,
                         views: nat, isDeleted: bool)

  /** An `ads` row; `scheduleTime` is the stored ISO time as a clock reading. */
  datatype Ad = Ad(imageFileId: string, text: string, buttonText: string, buttonUrl: string,
                   scheduleTime: int, repeatCount: int, timesSent: nat)

  /**
    The whole database. `adSeq` is SQLite's `sqlite_sequence` entry for the
    AUTOINCREMENT `ads.id`: the largest id the table has ever handed out.
  */
  datatype Tables = Tables(users: map<int, User>, movies: map<int, Movie>, channels: set<string>,
                           ads: map<int, Ad>, adSeq: nat, admins: set<int>,
                           settings: map<string, string>)

  /** The database right after `init_db` on a fresh file. */
  const Empty: Tables := Tables(map[], map[], {}, map[], 0, {}, map[])

  /** AUTOINCREMENT bookkeeping: no ad id exceeds the recorded sequence value. */
  ghost predicate Valid(t: Tables)
  {
    forall id :: id in t.ads ==> id <= t.adSeq
  }

  lemma EmptyValid()
    ensures Valid(Empty)
  {
  }

  // ---------------------------------------------------------------- users

  function CountUsers(t: Tables): nat
  {
    |t.users|
  }

  /**
    `add_or_update_user`: INSERT OR REPLACE, so an existing row is replaced as
    a whole and its `joinedDate` becomes `now` again.
  */
  function AddOrUpdateUser(t: Tables, id: int, username: string, fullname: string, now: int): (r: Tables)
    ensures id in r.users && r.users[id] == User(username, fullname, now)
    ensures r.users.Keys == t.users.Keys + {id}
    ensures forall u :: u in t.users && u != id ==> r.users[u] == t.users[u]
    ensures CountUsers(r) == CountUsers(t) + (if id in t.users then 0 else 1)
    ensures r == t.(users := r.users)
  {
    t.(users := t.users[id := User(username, fullname, now)])
  }

  // ------------------------------------------------------------- channels

  /** `add_channel`: INSERT OR IGNORE into a one-column table. */
  function AddChannel(t: Tables, username: string): (r: Tables)
    ensures username in r.channels
    ensures forall c :: c != username ==> (c in r.channels <==> c in t.channels)
    ensures username in t.channels ==> r == t
    ensures r == t.(channels := r.channels)
  {
    t.(channels := t.channels + {username})
  }

  /** `remove_channel`: DELETE of that key only. */
  function RemoveChannel(t: Tables, username: string): (r: Tables)
    ensures username !in r.channels
    ensures forall c :: c != username ==> (c in r.channels <==> c in t.channels)
    ensures username !in t.channels ==> r == t
    ensures r == t.(channels := r.channels)
  {
    t.(channels := t.channels - {username})
  }

  // ------------------------------------------------------------- settings

  /** `set_setting`: INSERT OR REPLACE of one key. */
  function SetSetting(t: Tables, key: string, value: string): (r: Tables)
    ensures forall d :: GetSetting(r, key, d) == value
    ensures forall k, d :: k != key ==> GetSetting(r, k, d) == GetSetting(t, k, d)
    ensures r == t.(settings := r.settings)
  {
    t.(settings := t.settings[key := value])
  }

  /** `get_setting`: the stored string, or `default` when the key has no row. */
  function GetSetting(t: Tables, key: string, default: string): string
  {
    if key in t.settings then t.settings[key] else default
  }

  // --------------------------------------------------------------- admins

  predicate IsAdmin(t: Tables, uid: int)
  {
    uid in t.admins
  }

  /** `add_admin`: INSERT OR IGNORE. */
  function AddAdmin(t: Tables, uid: int): (r: Tables)
    ensures IsAdmin(r, uid)
    ensures forall u :: u != uid ==> (IsAdmin(r, u) <==> IsAdmin(t, u))
    ensures IsAdmin(t, uid) ==> r == t
    ensures r == t.(admins := r.admins)
  {
    t.(admins := t.admins + {uid})
  }

  /** `remove_admin`: DELETE of that id only. */
  function RemoveAdmin(t: Tables, uid: int): (r: Tables)
    ensures !IsAdmin(r, uid)
    ensures forall u :: u != uid ==> (IsAdmin(r, u) <==> IsAdmin(t, u))
    ensures !IsAdmin(t, uid) ==> r == t
    ensures r == t.(admins := r.admins)
  {
    t.(admins := t.admins - {uid})
  }

  // --------------------------------------------------------------- movies

  /** `c` is the least positive integer missing from `codes`. */
  ghost predicate IsSmallestFree(codes: set<int>, c: int)
  {
    1 <= c && c !in codes && forall j :: 1 <= j < c ==> j in codes
  }

  /** The integers `1 .. n-1`. */
  function Below(n: int): (r: set<int>)
    ensures forall j :: j in r <==> 1 <= j < n
    ensures |r| == if n <= 1 then 0 else n - 1
    decreases n
  {
    if n <= 1 then {} else Below(n - 1) + {n - 1}
  }

  /** A subset is no larger than its superset. */
  lemma SubsetSize<T>(a: set<T>, b: set<T>)
    requires a <= b
    ensures |a| <= |b|
  {
    assert b == a + (b - a);
  }

  /** A set that holds all of `1 .. n-1` has at least `n - 1` elements. */
  lemma CoveredBound(codes: set<int>, n: int)
    requires 1 <= n
    requires forall j :: 1 <= j < n ==> j in codes
    ensures n - 1 <= |codes|
  {
    SubsetSize(Below(n), codes);
  }

  /**
    The loop of `get_next_code`, started at `i` once `1 .. i-1` are known to
    be taken. It stops within `|codes| + 1` steps, since a set cannot cover
    more consecutive integers than it has elements.
  */
  function FirstFreeFrom(codes: set<int>, i: int): (c: int)
    requires 1 <= i
    requires forall j :: 1 <= j < i ==> j in codes
    ensures IsSmallestFree(codes, c)
    ensures i <= c <= |codes| + 1
    decreases |codes| + 1 - i
  {
    if i !in codes then
      CoveredBound(codes, i);
      i
    else
      CoveredBound(codes, i + 1);
      FirstFreeFrom(codes, i + 1)
  }

  /**
    `get_next_code` over `_get_all_codes`: the smallest positive code that no
    row holds, soft-deleted rows included, so a deleted code is never reused.
  */
  function NextCode(t: Tables): (c: int)
    ensures IsSmallestFree(t.movies.Keys, c)
    ensures forall d :: IsSmallestFree(t.movies.Keys, d) ==> d == c
    ensures c <= |t.movies| + 1
  {
    FirstFreeFrom(t.movies.Keys, 1)
  }

  /**
    `add_movie`: a fresh row at the allocated code with no views and not
    deleted; the code is returned and every other row is kept.
  */
  function AddMovie(t: Tables, title: string, format: string, language: string, fileId: string): (r: (Tables, int))
    ensures IsSmallestFree(t.movies.Keys, r.1)
    ensures r.1 in r.0.movies && r.0.movies[r.1] == Movie(title, format, language, fileId, 0, false)
    ensures r.0.movies.Keys == t.movies.Keys + {r.1}
    ensures forall c :: c in t.movies ==> r.0.movies[c] == t.movies[c]
    ensures r.0 == t.(movies := r.0.movies)
  {
    var code := NextCode(t);
    (t.(movies := t.movies[code := Movie(title, format, language, fileId, 0, false)]), code)
  }

  /** `get_movie`: the row at `code`, deleted or not. */
  function GetMovie(t: Tables, code: int): Option<Movie>
  {
    if code in t.movies then Some(t.movies[code]) else None
  }

  /**
    `increment_views`: one more view on that row whether or not it is
    soft-deleted; an absent code matches no row and nothing changes.
  */
  function IncrementViews(t: Tables, code: int): (r: Tables)
    ensures r.movies.Keys == t.movies.Keys
    ensures code in t.movies ==> r.movies[code] == t.movies[code].(views := t.movies[code].views + 1)
    ensures code !in t.movies ==> r == t
    ensures forall c :: c in t.movies && c != code ==> r.movies[c] == t.movies[c]
    ensures r == t.(movies := r.movies)
  {
    if code in t.movies then
      var m := t.movies[code];
      t.(movies := t.movies[code := m.(views := m.views + 1)])
    else t
  }

  /**
    `delete_movie`: a soft delete. The row, its fields and its views stay, so
    the code stays taken and allocation is not affected.
  */
  function DeleteMovie(t: Tables, code: int): (r: Tables)
    ensures r.movies.Keys == t.movies.Keys
    ensures code in t.movies ==> r.movies[code] == t.movies[code].(isDeleted := true)
    ensures code !in t.movies ==> r == t
    ensures forall c :: c in t.movies && c != code ==> r.movies[c] == t.movies[c]
    ensures r == t.(movies := r.movies)
    ensures NextCode(r) == NextCode(t)
  {
    if code in t.movies then
      t.(movies := t.movies[code := t.movies[code].(isDeleted := true)])
    else t
  }

  /** Codes of the rows `movies_count` counts: those with `is_deleted = 0`. */
  function LiveCodes(t: Tables): set<int>
  {
    set c | c in t.movies && !t.movies[c].isDeleted
  }

  /** `movies_count`: the number of rows that are not soft-deleted. */
  function MoviesCount(t: Tables): (n: nat)
    ensures n <= |t.movies|
    ensures t.movies == map[] ==> n == 0
  {
    SubsetSize(LiveCodes(t), t.movies.Keys);
    |LiveCodes(t)|
  }

  /** Some element of a non-empty set. */
  ghost function Pick(s: set<int>): (x: int)
    requires s != {}
    ensures x in s
  {
    NonEmptyHasElement(s);
    var e :| e in s; e
  }

  lemma NonEmptyHasElement(s: set<int>)
    requires s != {}
    ensures exists e :: e in s
  {
    if forall e :: e !in s {
      assert false;
    }
  }

  /** Sum of `views` over the rows at `keys`. */
  ghost function SumViews(m: map<int, Movie>, keys: set<int>): nat
    requires keys <= m.Keys
    decreases keys
  {
    if keys == {} then 0
    else
      var c := Pick(keys);
      m[c].views + SumViews(m, keys - {c})
  }

  /** The sum does not depend on which row the definition takes first. */
  lemma {:induction false} SumViewsRemove(m: map<int, Movie>, keys: set<int>, c: int)
    requires keys <= m.Keys && c in keys
    ensures SumViews(m, keys) == m[c].views + SumViews(m, keys - {c})
    decreases keys
  {
    var d := Pick(keys);
    if d != c {
      SumViewsRemove(m, keys - {d}, c);
      SumViewsRemove(m, keys - {c}, d);
      assert keys - {d} - {c} == keys - {c} - {d};
    }
  }

  /** Two tables with the same views on `keys` have the same sum there. */
  lemma {:induction false} SumViewsAgree(m: map<int, Movie>, m': map<int, Movie>, keys: set<int>)
    requires keys <= m.Keys && keys <= m'.Keys
    requires forall c :: c in keys ==> m[c].views == m'[c].views
    ensures SumViews(m, keys) == SumViews(m', keys)
    decreases keys
  {
    if keys != {} {
      var c := Pick(keys);
      SumViewsRemove(m, keys, c);
      SumViewsRemove(m', keys, c);
      SumViewsAgree(m, m', keys - {c});
    }
  }

  /** `total_views`: SUM(views) over every row, deleted ones included; 0 when empty. */
  ghost function TotalViews(t: Tables): (n: nat)
    ensures t.movies == map[] ==> n == 0
  {
    SumViews(t.movies, t.movies.Keys)
  }

  // ------------------------------------------------------------------ ads

  /**
    `add_ad`: a row with `times_sent = 0` under a new AUTOINCREMENT id, larger
    than any id the table has ever held, so ids of deleted ads never return.
  */
  function AddAd(t: Tables, imageFileId: string, text: string, buttonText: string, buttonUrl: string,
                 scheduleTime: int, repeatCount: int): (r: (Tables, int))
    requires Valid(t)
    ensures Valid(r.0)
    ensures r.1 !in t.ads && r.1 > t.adSeq
    ensures r.1 in r.0.ads
    ensures r.0.ads[r.1] == Ad(imageFileId, text, buttonText, buttonUrl, scheduleTime, repeatCount, 0)
    ensures r.0.ads.Keys == t.ads.Keys + {r.1}
    ensures forall id :: id in t.ads ==> r.0.ads[id] == t.ads[id]
    ensures r.0 == t.(ads := r.0.ads, adSeq := r.0.adSeq)
  {
    var id := t.adSeq + 1;
    (t.(ads := t.ads[id := Ad(imageFileId, text, buttonText, buttonUrl, scheduleTime, repeatCount, 0)],
        adSeq := id), id)
  }

  /** `get_ad`. */
  function GetAd(t: Tables, id: int): Option<Ad>
  {
    if id in t.ads then Some(t.ads[id]) else None
  }

  /** `increment_ad_sent`: one more send on that ad only. */
  function IncrementAdSent(t: Tables, id: int): (r: Tables)
    ensures Valid(t) ==> Valid(r)
    ensures r.ads.Keys == t.ads.Keys
    ensures id in t.ads ==> r.ads[id] == t.ads[id].(timesSent := t.ads[id].timesSent + 1)
    ensures id !in t.ads ==> r == t
    ensures forall a :: a in t.ads && a != id ==> r.ads[a] == t.ads[a]
    ensures r == t.(ads := r.ads)
  {
    if id in t.ads then
      var ad := t.ads[id];
      t.(ads := t.ads[id := ad.(timesSent := ad.timesSent + 1)])
    else t
  }

  /** `delete_ad`: removes that id only; the sequence value is kept. */
  function DeleteAd(t: Tables, id: int): (r: Tables)
    ensures Valid(t) ==> Valid(r)
    ensures r.ads.Keys == t.ads.Keys - {id}
    ensures forall a :: a in r.ads ==> r.ads[a] == t.ads[a]
    ensures r == t.(ads := r.ads)
  {
    t.(ads := t.ads - {id})
  }

  // ------------------------------------------------------------ properties

  /** Reading a movie back right after `add_movie` gives the fresh row. */
  lemma AddThenGetMovie(t: Tables, title: string, format: string, language: string, fileId: string)
    ensures var (t', code) := AddMovie(t, title, format, language, fileId);
            GetMovie(t', code) == Some(Movie(title, format, language, fileId, 0, false))
            && forall c :: c != code ==> GetMovie(t', c) == GetMovie(t, c)
  {
  }

  /** `add_movie` adds one live movie to `movies_count`. */
  lemma AddMovieCount(t: Tables, title: string, format: string, language: string, fileId: string)
    ensures MoviesCount(AddMovie(t, title, format, language, fileId).0) == MoviesCount(t) + 1
  {
    var (t', code) := AddMovie(t, title, format, language, fileId);
    assert LiveCodes(t') == LiveCodes(t) + {code};
  }

  /** Soft delete removes a live movie from `movies_count` and nothing else. */
  lemma DeleteMovieCount(t: Tables, code: int)
    ensures code in t.movies && !t.movies[code].isDeleted ==>
              MoviesCount(DeleteMovie(t, code)) == MoviesCount(t) - 1
    ensures code !in t.movies || t.movies[code].isDeleted ==>
              MoviesCount(DeleteMovie(t, code)) == MoviesCount(t)
  {
    var t' := DeleteMovie(t, code);
    if code in t.movies && !t.movies[code].isDeleted {
      assert LiveCodes(t') == LiveCodes(t) - {code};
    } else {
      assert LiveCodes(t') == LiveCodes(t);
    }
  }

  /** A second soft delete of the same code changes nothing. */
  lemma DeleteMovieIdempotent(t: Tables, code: int)
    ensures DeleteMovie(DeleteMovie(t, code), code) == DeleteMovie(t, code)
  {
  }

  /** Counting views never changes `movies_count`. */
  lemma IncrementViewsCount(t: Tables, code: int)
    ensures MoviesCount(IncrementViews(t, code)) == MoviesCount(t)
  {
    assert LiveCodes(IncrementViews(t, code)) == LiveCodes(t);
  }

  /** `increment_views` raises `total_views` by exactly one when the row exists. */
  lemma IncrementViewsTotal(t: Tables, code: int)
    ensures code in t.movies ==> TotalViews(IncrementViews(t, code)) == TotalViews(t) + 1
    ensures code !in t.movies ==> TotalViews(IncrementViews(t, code)) == TotalViews(t)
  {
    if code in t.movies {
      var t' := IncrementViews(t, code);
      var keys := t.movies.Keys;
      SumViewsRemove(t.movies, keys, code);
      SumViewsRemove(t'.movies, keys, code);
      SumViewsAgree(t.movies, t'.movies, keys - {code});
    }
  }

  /** Soft delete keeps the deleted row's views in `total_views`. */
  lemma DeleteMovieTotal(t: Tables, code: int)
    ensures TotalViews(DeleteMovie(t, code)) == TotalViews(t)
  {
    var t' := DeleteMovie(t, code);
    SumViewsAgree(t.movies, t'.movies, t.movies.Keys);
  }

  /** A new movie starts at zero views, so `total_views` is unchanged. */
  lemma AddMovieTotal(t: Tables, title: string, format: string, language: string, fileId: string)
    ensures TotalViews(AddMovie(t, title, format, language, fileId).0) == TotalViews(t)
  {
    var (t', code) := AddMovie(t, title, format, language, fileId);
    SumViewsRemove(t'.movies, t'.movies.Keys, code);
    assert t'.movies.Keys - {code} == t.movies.Keys;
    SumViewsAgree(t.movies, t'.movies, t.movies.Keys);
  }

  /** Codes of successive `add_movie` calls differ, even with a soft delete in between. */
  lemma CodesNeverReused(t: Tables, title: string, format: string, language: string, fileId: string,
                         title': string, format': string, language': string, fileId': string)
    ensures var (t1, c1) := AddMovie(t, title, format, language, fileId);
            AddMovie(DeleteMovie(t1, c1), title', format', language', fileId').1 != c1
  {
  }

  /**
    An ad id removed by `delete_ad` is not handed out by the next `add_ad`,
    nor by any `add_ad` of any later sequence of ad operations.
  */
  lemma AdIdsNeverReused(t: Tables, id: int, imageFileId: string, text: string, buttonText: string,
                         buttonUrl: string, scheduleTime: int, repeatCount: int, later: seq<AdOp>)
    requires Valid(t) && id in t.ads
    ensures AddAd(DeleteAd(t, id), imageFileId, text, buttonText, buttonUrl, scheduleTime, repeatCount).1 != id
    ensures id !in AdRun(DeleteAd(t, id), later).1
  {
  }

  /** One write to the `ads` table. */
  datatype AdOp =
    | AddAdOp(imageFileId: string, text: string, buttonText: string, buttonUrl: string,
              scheduleTime: int, repeatCount: int)
    | DeleteAdOp(id: int)
    | SentAdOp(id: int)

  /**
    Applies ad writes in order and returns the final tables together with
    the ids `add_ad` handed out, in order. Every issued id lies above the
    starting sequence value and at most the final one, and the ids are
    strictly increasing.
  */
  function AdRun(t: Tables, ops: seq<AdOp>): (r: (Tables, seq<int>))
    requires Valid(t)
    ensures Valid(r.0)
    ensures t.adSeq <= r.0.adSeq
    ensures forall k :: 0 <= k < |r.1| ==> t.adSeq < r.1[k] <= r.0.adSeq
    ensures forall j, k :: 0 <= j < k < |r.1| ==> r.1[j] < r.1[k]
    decreases |ops|
  {
    if ops == [] then (t, [])
    else
      match ops[0]
      case AddAdOp(img, txt, bt, bu, st, rc) =>
        var (t1, k) := AddAd(t, img, txt, bt, bu, st, rc);
        var (t2, ks) := AdRun(t1, ops[1..]);
        (t2, [k] + ks)
      case DeleteAdOp(id) => AdRun(DeleteAd(t, id), ops[1..])
      case SentAdOp(id) => AdRun(IncrementAdSent(t, id), ops[1..])
  }

  /**
    Once an id is at most the sequence value it is retired: no later
    `add_ad` returns it, and it stays at most the sequence value.
  */
  lemma AdIdsStayRetired(t: Tables, id: int, ops: seq<AdOp>)
    requires Valid(t) && id <= t.adSeq
    ensures id !in AdRun(t, ops).1
    ensures id <= AdRun(t, ops).0.adSeq
  {
  }
}

=== FILE: ledger.dfy ===
/**
  The paid-subscription variant of the store (`db.py`): movies keyed by a
  text code, users with a subscription expiry, a failed-attempt counter and a
  blocked flag, admins, and settings seeded with default prices and card
  details. This schema is separate from the one in `Catalog`.
*/
module Ledger {
  import opened Wrappers

  /** Failed attempts at which `inc_failed` sets the blocked flag. */
  const BlockThreshold: nat := 3

  /** Length of one day of `timedelta(days = 1)` in clock units (seconds). */
  const SecondsPerDay: nat := 86400

  /** A `users` row; `subUntil` is NULL until a subscription is granted. */
  datatype Account = Account(username: Option<string>, joinAt: int, subUntil: Option<int>,
                             failed: nat, blocked: bool)

  /** A `movies` row. */
  datatype Film = Film(title: Option<string>, quality: Option<string>, year: Option<int>,
                       language: Option<string>, rating: Option<string>, fileId: string,
                       addedBy: int, addedAt: int)

  /**
    The `data` dict `add_movie` receives: `title` and `file_id` are read with
    `[...]`, the rest with `.get(...)`, so each may be `None`.
  */
  datatype Submission = Submission(title: Option<string>, quality: Option<string>, year: Option<int>,
                                   language: Option<string>, rating: Option<string>,
                                   fileId: Option<string>)

  datatype Store = Store(movies: map<string, Film>, users: map<int, Account>, admins: set<int>,
                         settings: map<string, string>)

  /** The settings `init` seeds, in the order it inserts them. */
  const Defaults: seq<(string, string)> := [
    ("price_1m", "35000"),
    ("price_3m", "90000"),
    ("price_6m", "160000"),
    ("price_12m", "300000"),
    ("card_number", "8600 xxxx xxxx xxxx"),
    ("card_holder", "SOLEJON ADASHOV ISROILOVICH")
  ]

  /** The default value listed for `key`, the first listing winning. */
  function DefaultFor(defaults: seq<(string, string)>, key: string): Option<string>
  {
    if defaults == [] then None
    else if defaults[0].0 == key then Some(defaults[0].1)
    else DefaultFor(defaults[1..], key)
  }

  /**
    INSERT OR IGNORE of each pair in turn: a key that already has a value
    keeps it, and only missing keys receive their default.
  */
  function InsertOrIgnore(settings: map<string, string>, defaults: seq<(string, string)>): (r: map<string, string>)
    ensures forall k :: k in r <==> k in settings || DefaultFor(defaults, k).Some?
    ensures forall k :: k in settings ==> r[k] == settings[k]
    ensures forall k :: k !in settings && DefaultFor(defaults, k).Some? ==> r[k] == DefaultFor(defaults, k).value
    decreases |defaults|
  {
    if defaults == [] then settings
    else
      var (k, v) := defaults[0];
      InsertOrIgnore(if k in settings then settings else settings[k := v], defaults[1..])
  }

  /** `init`: the tables are created if missing (rows kept) and the defaults seeded. */
  function Init(s: Store): (r: Store)
    ensures forall k :: k in s.settings ==> k in r.settings && r.settings[k] == s.settings[k]
    ensures forall k :: k !in s.settings && DefaultFor(Defaults, k).Some? ==>
              k in r.settings && r.settings[k] == DefaultFor(Defaults, k).value
    ensures forall k :: k in r.settings ==> k in s.settings || DefaultFor(Defaults, k).Some?
    ensures r == s.(settings := r.settings)
  {
    s.(settings := InsertOrIgnore(s.settings, Defaults))
  }

  /** Running `init` again on an initialised store changes nothing. */
  lemma InitIdempotent(s: Store)
    ensures Init(Init(s)) == Init(s)
  {
    var once := Init(s);
    var twice := Init(once);
    assert twice.settings == once.settings;
  }

  /** On a fresh store, `init` leaves exactly the six default settings. */
  lemma InitFresh()
    ensures var r := Init(Store(map[], map[], {}, map[]));
            r.settings.Keys == (set i | 0 <= i < |Defaults| :: Defaults[i].0)
            && GetSetting(r, "price_1m", "") == "35000"
            && GetSetting(r, "card_holder", "") == "SOLEJON ADASHOV ISROILOVICH"
  {
    var r := Init(Store(map[], map[], {}, map[]));
    var names := set i | 0 <= i < |Defaults| :: Defaults[i].0;
    forall k | k in r.settings
      ensures k in names
    {
      var i :| 0 <= i < |Defaults| && Defaults[i].0 == k by {
        DefaultListed(Defaults, k);
      }
    }
    forall k | k in names
      ensures k in r.settings
    {
      var i :| 0 <= i < |Defaults| && Defaults[i].0 == k;
      DefaultFound(Defaults, i);
    }
  }

  /** A key with a default is one of the listed keys. */
  lemma {:induction false} DefaultListed(defaults: seq<(string, string)>, key: string)
    requires DefaultFor(defaults, key).Some?
    ensures exists i :: 0 <= i < |defaults| && defaults[i].0 == key
    decreases |defaults|
  {
    if defaults[0].0 != key {
      DefaultListed(defaults[1..], key);
      var i :| 0 <= i < |defaults[1..]| && defaults[1..][i].0 == key;
      assert defaults[i + 1].0 == key;
    }
  }

  /** Every listed key has a default. */
  lemma {:induction false} DefaultFound(defaults: seq<(string, string)>, i: int)
    requires 0 <= i < |defaults|
    ensures DefaultFor(defaults, defaults[i].0).Some?
    decreases |defaults|
  {
    if i > 0 && defaults[0].0 != defaults[i].0 {
      DefaultFound(defaults[1..], i - 1);
    }
  }

  /** `get_setting`: the stored value or the supplied default. */
  function GetSetting(s: Store, key: string, default: string): string
  {
    if key in s.settings then s.settings[key] else default
  }

  predicate IsAdmin(s: Store, uid: int)
  {
    uid in s.admins
  }

  /** `add_admin`: INSERT OR IGNORE. */
  function AddAdmin(s: Store, uid: int): (r: Store)
    ensures IsAdmin(r, uid)
    ensures forall u :: u != uid ==> (IsAdmin(r, u) <==> IsAdmin(s, u))
    ensures IsAdmin(s, uid) ==> r == s
    ensures r == s.(admins := r.admins)
  {
    s.(admins := s.admins + {uid})
  }

  /**
    `add_user`: INSERT OR IGNORE, so an existing user is left exactly as it
    was; a new one joins at `now` with no subscription, no failures and not
    blocked.
  */
  function AddUser(s: Store, uid: int, username: Option<string>, now: int): (r: Store)
    ensures uid in r.users
    ensures uid in s.users ==> r == s
    ensures uid !in s.users ==> r.users[uid] == Account(username, now, None, 0, false)
    ensures r.users.Keys == s.users.Keys + {uid}
    ensures forall u :: u in s.users ==> r.users[u] == s.users[u]
    ensures r == s.(users := r.users)
  {
    if uid in s.users then s else s.(users := s.users[uid := Account(username, now, None, 0, false)])
  }

  /**
    `has_active_sub`: false for an unknown user or a NULL expiry, otherwise
    whether the expiry is strictly later than `now`.
  */
  predicate HasActiveSub(s: Store, uid: int, now: int)
  {
    uid in s.users && s.users[uid].subUntil.Some? && s.users[uid].subUntil.value > now
  }

  /**
    `set_subscription`: the expiry becomes `now + days` whatever it was
    before (it is not extended), and the failure counter and blocked flag are
    cleared. An unknown user matches no row.
  */
  function SetSubscription(s: Store, uid: int, days: int, now: int): (r: Store)
    ensures uid !in s.users ==> r == s
    ensures uid in s.users ==>
              uid in r.users
              && r.users[uid] == s.users[uid].(subUntil := Some(now + days * SecondsPerDay), failed := 0, blocked := false)
    ensures r.users.Keys == s.users.Keys
    ensures forall u :: u in s.users && u != uid ==> r.users[u] == s.users[u]
    ensures r == s.(users := r.users)
  {
    if uid in s.users then
      var a := s.users[uid];
      s.(users := s.users[uid := a.(subUntil := Some(now + days * SecondsPerDay), failed := 0, blocked := false)])
    else s
  }

  /**
    `inc_failed`: one more failure; the flag is set once the new count reaches
    the threshold and is never cleared here. An unknown user matches no row.
  */
  function IncFailed(s: Store, uid: int): (r: Store)
    ensures uid !in s.users ==> r == s
    ensures uid in s.users ==> uid in r.users && r.users[uid].failed == s.users[uid].failed + 1
    ensures uid in s.users ==>
              (r.users[uid].blocked <==> s.users[uid].blocked || s.users[uid].failed + 1 >= BlockThreshold)
    ensures uid in s.users ==>
              r.users[uid] == s.users[uid].(failed := r.users[uid].failed, blocked := r.users[uid].blocked)
    ensures r.users.Keys == s.users.Keys
    ensures forall u :: u in s.users && u != uid ==> r.users[u] == s.users[u]
    ensures r == s.(users := r.users)
  {
    if uid in s.users then
      var a := s.users[uid];
      var n := a.failed + 1;
      s.(users := s.users[uid := a.(failed := n, blocked := if n >= BlockThreshold then true else a.blocked)])
    else s
  }

  /** `inc_failed` applied `n` times. */
  function IncFailedTimes(s: Store, uid: int, n: nat): Store
    decreases n
  {
    if n == 0 then s else IncFailed(IncFailedTimes(s, uid, n - 1), uid)
  }

  /**
    From a user with no failures who is not blocked, `n` failures leave the
    counter at `n` and the user blocked exactly when `n` reached the
    threshold: the third failure is the first to block.
  */
  lemma {:induction false} FailuresBlockAtThreshold(s: Store, uid: int, n: nat)
    requires uid in s.users && s.users[uid].failed == 0 && !s.users[uid].blocked
    ensures var r := IncFailedTimes(s, uid, n);
            uid in r.users && r.users[uid].failed == n && (r.users[uid].blocked <==> n >= BlockThreshold)
            && r.users[uid].subUntil == s.users[uid].subUntil
    decreases n
  {
    if n > 0 {
      FailuresBlockAtThreshold(s, uid, n - 1);
    }
  }

  /** After being blocked by failures, a new subscription unblocks the user. */
  lemma SubscriptionUnblocks(s: Store, uid: int, days: int, now: int)
    requires uid in s.users && s.users[uid].failed == 0 && !s.users[uid].blocked
    ensures var blocked := IncFailedTimes(s, uid, BlockThreshold);
            blocked.users[uid].blocked
            && !SetSubscription(blocked, uid, days, now).users[uid].blocked
            && SetSubscription(blocked, uid, days, now).users[uid].failed == 0
  {
    FailuresBlockAtThreshold(s, uid, BlockThreshold);
  }

  /**
    After `set_subscription(uid, days)` at `now`, the user is active at time
    `t` exactly when `t` is before `now + days`; an unknown user stays
    inactive.
  */
  lemma ActiveAfterSubscription(s: Store, uid: int, days: int, now: int, t: int)
    ensures HasActiveSub(SetSubscription(s, uid, days, now), uid, t) <==>
              uid in s.users && t < now + days * SecondsPerDay
  {
  }

  /** An unknown user, or one never given a subscription, is never active. */
  lemma NoSubscriptionInactive(s: Store, uid: int, now: int)
    requires uid !in s.users || s.users[uid].subUntil.None?
    ensures !HasActiveSub(s, uid, now)
  {
  }

  /** A new user from `add_user` has no active subscription at any time. */
  lemma NewUserInactive(s: Store, uid: int, username: Option<string>, now: int, t: int)
    requires uid !in s.users
    ensures !HasActiveSub(AddUser(s, uid, username, now), uid, t)
  {
  }

  /**
    `add_movie`: an INSERT that fails with an integrity error, reported as
    `false` with nothing stored, when the code is taken or `file_id` is
    missing (the column is NOT NULL); otherwise the row is stored with
    `added_by` and `added_at` and `true` is returned.
  */
  function AddMovie(s: Store, code: string, data: Submission, adminId: int, now: int): (r: (Store, bool))
    ensures r.1 <==> code !in s.movies && data.fileId.Some?
    ensures !r.1 ==> r.0 == s
    ensures r.1 ==>
              code in r.0.movies
              && r.0.movies[code] == Film(data.title, data.quality, data.year, data.language, data.rating,
                                          data.fileId.value, adminId, now)
    ensures r.0.movies.Keys == s.movies.Keys + (if r.1 then {code} else {})
    ensures forall c :: c in s.movies ==> r.0.movies[c] == s.movies[c]
    ensures r.0 == s.(movies := r.0.movies)
  {
    if code in s.movies then (s, false)
    else match data.fileId
      case None => (s, false)
      case Some(f) =>
        (s.(movies := s.movies[code := Film(data.title, data.quality, data.year, data.language,
                                            data.rating, f, adminId, now)]), true)
  }

  /** `get_movie`: the row at `code`, if any. */
  function GetMovie(s: Store, code: string): Option<Film>
  {
    if code in s.movies then Some(s.movies[code]) else None
  }

  /** Adding under a taken code never disturbs the stored movie. */
  lemma DuplicateCodeKeepsMovie(s: Store, code: string, data: Submission, adminId: int, now: int)
    requires code in s.movies
    ensures var (s', ok) := AddMovie(s, code, data, adminId, now);
            !ok && GetMovie(s', code) == GetMovie(s, code)
  {
  }
}

=== FILE: lookup.dfy ===
/**
  User-side decisions of the bot (`bot.py`): the "check subscriptions"
  callback and the handler that answers a movie code. Telegram's
  `get_chat_member` is supplied as `member`, giving for each channel either
  the member status it reported or the fact that the lookup raised; whether
  the video could be sent is supplied as `sent`.
*/
module Lookup {
  import Text
  import Catalog
  import Access

  /** One `get_chat_member` result. */
  datatype Membership = Status(status: string) | LookupFailed

  /** A channel the user still has to join: status `left`/`kicked`, or the lookup raised. */
  predicate Unsatisfied(m: Membership)
  {
    m.LookupFailed? || m.status == "left" || m.status == "kicked"
  }

  /** `a` is `b` with some elements dropped, order kept. */
  ghost predicate SubsequenceOf<T>(a: seq<T>, b: seq<T>)
    decreases |b|
  {
    if a == [] then true
    else if b == [] then false
    else (a[0] == b[0] && SubsequenceOf(a[1..], b[1..])) || SubsequenceOf(a, b[1..])
  }

  /**
    The `not_subscribed` list of `cb_check_subs`: the channels, in listing
    order, that are unsatisfied.
  */
  function NotSubscribed(channels: seq<string>, member: string -> Membership): (r: seq<string>)
    ensures SubsequenceOf(r, channels)
    ensures forall ch :: ch in r <==> ch in channels && Unsatisfied(member(ch))
    ensures forall ch :: multiset(r)[ch] == if Unsatisfied(member(ch)) then multiset(channels)[ch] else 0
    decreases |channels|
  {
    if channels == [] then []
    else
      var rest := NotSubscribed(channels[1..], member);
      assert multiset(channels) == multiset([channels[0]]) + multiset(channels[1..]) by {
        assert channels == [channels[0]] + channels[1..];
      }
      if Unsatisfied(member(channels[0])) then [channels[0]] + rest else rest
  }

  datatype CheckReply = NoChannels | JoinFirst(missing: seq<string>) | AllJoined

  /**
    `cb_check_subs` over the channel listing: an empty listing is reported on
    its own; otherwise the user has passed exactly when nothing is missing.
    This callback does not consult the force-subscribe setting.
  */
  function CheckSubs(channels: seq<string>, member: string -> Membership): (r: CheckReply)
    ensures r == NoChannels <==> channels == []
    ensures r == AllJoined <==> channels != [] && forall ch :: ch in channels ==> !Unsatisfied(member(ch))
    ensures r.JoinFirst? ==> r.missing != [] && r.missing == NotSubscribed(channels, member)
  {
    if channels == [] then NoChannels
    else
      var missing := NotSubscribed(channels, member);
      if missing != [] then
        assert missing[0] in missing;
        JoinFirst(missing)
      else AllJoined
  }

  /**
    The force-subscribe gate of `movie_by_code` blocks when the setting reads
    `on` and some configured channel is unsatisfied. The handler stops at the
    first such channel in its listing, and the reply lists every channel, so
    only whether one exists matters.
  */
  predicate GateBlocks(t: Catalog.Tables, member: string -> Membership)
  {
    && Catalog.GetSetting(t, Access.ForceKey, "off") == "on"
    && t.channels != {}
    && exists ch :: ch in t.channels && Unsatisfied(member(ch))
  }

  /**
    `listing` is what `list_channels` returns for `t`: every configured
    channel, each once, since `username` is the table's primary key.
  */
  predicate ListsChannels(t: Catalog.Tables, listing: seq<string>)
  {
    && (forall ch :: ch in listing ==> ch in t.channels)
    && (forall ch :: ch in t.channels ==> ch in listing)
    && (forall i, j :: 0 <= i < j < |listing| ==> listing[i] != listing[j])
  }

  /**
    The channel loop of `movie_by_code`: it walks the listing and stops with
    the subscription prompt at the first unsatisfied channel.
  */
  function GateScan(listing: seq<string>, member: string -> Membership): (r: bool)
    ensures r <==> exists k :: 0 <= k < |listing| && Unsatisfied(member(listing[k]))
    decreases |listing|
  {
    if listing == [] then false
    else if Unsatisfied(member(listing[0])) then true
    else
      var r := GateScan(listing[1..], member);
      assert forall k :: 1 <= k < |listing| ==> listing[k] == listing[1..][k - 1];
      r
  }

  /**
    The existential in `GateBlocks` is the loop with its early return: over
    the channel listing, the gate blocks exactly when the setting reads `on`
    and the loop stops at some channel.
  */
  lemma GateBlocksIsScan(t: Catalog.Tables, listing: seq<string>, member: string -> Membership)
    requires ListsChannels(t, listing)
    ensures GateBlocks(t, member) <==>
              Catalog.GetSetting(t, Access.ForceKey, "off") == "on" && GateScan(listing, member)
  {
    if GateScan(listing, member) {
      var k :| 0 <= k < |listing| && Unsatisfied(member(listing[k]));
      assert listing[k] in t.channels;
    }
    if exists ch :: ch in t.channels && Unsatisfied(member(ch)) {
      var ch :| ch in t.channels && Unsatisfied(member(ch));
      var k :| 0 <= k < |listing| && listing[k] == ch;
      assert Unsatisfied(member(listing[k]));
    }
  }

  /**
    The callback's "all joined" reply is the lookup's gate passing: over the
    channel listing it is given exactly when some channel is configured and
    none is unsatisfied, so a code sent next with the same memberships is
    not stopped by the gate.
  */
  lemma CheckSubsMatchesGate(t: Catalog.Tables, listing: seq<string>, member: string -> Membership)
    requires ListsChannels(t, listing)
    ensures CheckSubs(listing, member) == AllJoined <==>
              t.channels != {} && !(exists ch :: ch in t.channels && Unsatisfied(member(ch)))
    ensures CheckSubs(listing, member) == AllJoined ==> !GateBlocks(t, member)
  {
    if listing == [] {
      assert t.channels == {};
    } else {
      assert listing[0] in t.channels;
    }
  }

  datatype CodeReply = NotHandled | NotFound | MustSubscribe | SendFailed | Sent(code: int)

  datatype CodeOutcome = CodeOutcome(reply: CodeReply, tables: Catalog.Tables)

  /** The movie a code message asks for, when a live row has that code. */
  predicate Servable(t: Catalog.Tables, code: int)
  {
    code in t.movies && !t.movies[code].isDeleted
  }

  /**
    `movie_by_code`: only a message whose stripped text is all digits reaches
    the handler. A missing or soft-deleted movie is reported before any
    channel check; then the force-subscribe gate; then the video is sent, and
    only a successful send adds one view.
  */
  function MovieByCode(t: Catalog.Tables, text: string, member: string -> Membership, sent: bool): (r: CodeOutcome)
    ensures !Access.IdArgument(text) ==> r == CodeOutcome(NotHandled, t)
    ensures Access.IdArgument(text) && !Servable(t, Access.IdValue(text)) ==> r == CodeOutcome(NotFound, t)
    ensures r.reply == NotHandled <==> !Access.IdArgument(text)
    ensures r.reply == NotFound <==> Access.IdArgument(text) && !Servable(t, Access.IdValue(text))
    ensures r.reply == MustSubscribe <==>
              Access.IdArgument(text) && Servable(t, Access.IdValue(text)) && GateBlocks(t, member)
    ensures r.reply.Sent? <==>
              Access.IdArgument(text) && Servable(t, Access.IdValue(text)) && !GateBlocks(t, member) && sent
    ensures r.reply == SendFailed <==>
              Access.IdArgument(text) && Servable(t, Access.IdValue(text)) && !GateBlocks(t, member) && !sent
    ensures r.reply.Sent? ==>
              r.reply.code == Access.IdValue(text) && r.tables == Catalog.IncrementViews(t, r.reply.code)
    ensures !r.reply.Sent? ==> r.tables == t
  {
    if !Access.IdArgument(text) then CodeOutcome(NotHandled, t)
    else
      var code := Access.IdValue(text);
      match Catalog.GetMovie(t, code)
      case None => CodeOutcome(NotFound, t)
      case Some(movie) =>
        if movie.isDeleted then CodeOutcome(NotFound, t)
        else if GateBlocks(t, member) then CodeOutcome(MustSubscribe, t)
        else if !sent then CodeOutcome(SendFailed, t)
        else CodeOutcome(Sent(code), Catalog.IncrementViews(t, code))
  }

  /** A missing or deleted movie is "not found" whatever the memberships and the send would be. */
  lemma NotFoundFirst(t: Catalog.Tables, text: string, m1: string -> Membership, m2: string -> Membership,
                      s1: bool, s2: bool)
    requires Access.IdArgument(text) && !Servable(t, Access.IdValue(text))
    ensures MovieByCode(t, text, m1, s1) == MovieByCode(t, text, m2, s2) == CodeOutcome(NotFound, t)
  {
  }

  /** With the setting not `on`, or no channel configured, memberships play no part. */
  lemma GateOnlyWhenOn(t: Catalog.Tables, text: string, m1: string -> Membership, m2: string -> Membership,
                       sent: bool)
    requires Catalog.GetSetting(t, Access.ForceKey, "off") != "on" || t.channels == {}
    ensures MovieByCode(t, text, m1, sent) == MovieByCode(t, text, m2, sent)
  {
  }

  /**
    A served code gains exactly one view and every other row is unchanged;
    a failed send or a subscription prompt changes no view.
  */
  lemma ViewsCountedOnce(t: Catalog.Tables, text: string, member: string -> Membership, sent: bool)
    ensures var r := MovieByCode(t, text, member, sent);
            && (r.reply.Sent? ==>
                  var c := r.reply.code;
                  c in r.tables.movies && r.tables.movies[c].views == t.movies[c].views + 1
                  && (forall d :: d in t.movies && d != c ==> r.tables.movies[d] == t.movies[d])
                  && Catalog.TotalViews(r.tables) == Catalog.TotalViews(t) + 1)
            && (!r.reply.Sent? ==> Catalog.TotalViews(r.tables) == Catalog.TotalViews(t))
  {
    var r := MovieByCode(t, text, member, sent);
    if r.reply.Sent? {
      Catalog.IncrementViewsTotal(t, r.reply.code);
    }
  }
}

=== FILE: text.dfy ===
/**
  The Python string primitives the bot's handlers apply to command arguments:
  `str.strip()`, `str.isdigit()`, `int(...)` on a digit string, `str.lower()`
  and `str.split(sep, 1)`. Strings are sequences of characters.
*/
module Text {
  import opened Wrappers

  /** Python's `str.isspace()` for one character: the characters `strip()` removes. */
  predicate IsSpace(c: char)
  {
    var n := c as int;
    (9 <= n <= 13) || (28 <= n <= 32) || n == 0x85 || n == 0xA0 || n == 0x1680
    || (0x2000 <= n <= 0x200A) || n == 0x2028 || n == 0x2029 || n == 0x202F
    || n == 0x205F || n == 0x3000
  }

  /** `s.lstrip()`: the suffix of `s` left after dropping leading whitespace. */
  function TrimLeft(s: string): (r: string)
    ensures |r| <= |s| && r == s[|s| - |r|..]
    ensures forall k :: 0 <= k < |s| - |r| ==> IsSpace(s[k])
    ensures r == [] || !IsSpace(r[0])
  {
    if s == [] || !IsSpace(s[0]) then s else TrimLeft(s[1..])
  }

  /** `s.rstrip()`: the prefix of `s` left after dropping trailing whitespace. */
  function TrimRight(s: string): (r: string)
    ensures |r| <= |s| && r == s[..|r|]
    ensures forall k :: |r| <= k < |s| ==> IsSpace(s[k])
    ensures r == [] || !IsSpace(r[|r| - 1])
  {
    if s == [] || !IsSpace(s[|s| - 1]) then s else TrimRight(s[..|s| - 1])
  }

  /** `r` sits in `s` at offset `i` with nothing but whitespace around it. */
  ghost predicate PaddedAt(s: string, r: string, i: int)
  {
    && 0 <= i && i + |r| <= |s| && r == s[i..i + |r|]
    && (forall k :: 0 <= k < i ==> IsSpace(s[k]))
    && (forall k :: i + |r| <= k < |s| ==> IsSpace(s[k]))
  }

  /**
    `s.strip()`: the infix of `s` that neither starts nor ends with
    whitespace and is surrounded in `s` only by whitespace.
  */
  function Strip(s: string): (r: string)
    ensures exists i :: PaddedAt(s, r, i)
    ensures r == [] || (!IsSpace(r[0]) && !IsSpace(r[|r| - 1]))
  {
    var l := TrimLeft(s);
    var r := TrimRight(l);
    var i := |s| - |l|;
    assert PaddedAt(s, r, i);
    r
  }

  /**
    `Strip` is the only reading of "`s` without its surrounding whitespace":
    any infix with whitespace-free ends and only whitespace around it is it.
  */
  lemma StripUnique(s: string, r: string, i: int)
    requires PaddedAt(s, r, i)
    requires r == [] || (!IsSpace(r[0]) && !IsSpace(r[|r| - 1]))
    ensures r == Strip(s)
  {
    var r' := Strip(s);
    var i' :| PaddedAt(s, r', i');
    assert r != [] ==> s[i] == r[0] && s[i + |r| - 1] == r[|r| - 1];
    assert r' != [] ==> s[i'] == r'[0] && s[i' + |r'| - 1] == r'[|r'| - 1];
  }

  predicate IsDigit(c: char)
  {
    '0' <= c <= '9'
  }

  /** Python's `str.isdigit()` on ASCII text: non-empty and made of digits only. */
  predicate IsDigits(s: string)
  {
    |s| > 0 && forall k :: 0 <= k < |s| ==> IsDigit(s[k])
  }

  function DigitValue(c: char): nat
    requires IsDigit(c)
  {
    (c as int) - ('0' as int)
  }

  function DigitChar(d: nat): (c: char)
    requires d < 10
    ensures IsDigit(c) && DigitValue(c) == d
  {
    (('0' as int) + d) as char
  }

  /** `int(s)` for a string of digits: its base-ten value, leading zeros allowed. */
  function DigitsValue(s: string): nat
    requires forall k :: 0 <= k < |s| ==> IsDigit(s[k])
    decreases |s|
  {
    if s == [] then 0 else 10 * DigitsValue(s[..|s| - 1]) + DigitValue(s[|s| - 1])
  }

  /** `str(n)` for a natural number: canonical decimal digits, no leading zero. */
  function Decimal(n: nat): (s: string)
    ensures IsDigits(s)
    ensures s[0] == '0' ==> n == 0
    decreases n
  {
    if n < 10 then [DigitChar(n)] else Decimal(n / 10) + [DigitChar(n % 10)]
  }

  /** `int(str(n)) == n`: parsing the decimal rendering gives the number back. */
  lemma {:induction false} DecimalRoundTrip(n: nat)
    ensures DigitsValue(Decimal(n)) == n
    decreases n
  {
    if n >= 10 {
      DecimalRoundTrip(n / 10);
      var s := Decimal(n);
      assert s[..|s| - 1] == Decimal(n / 10);
    }
  }

  /** A digit string without a leading zero, as `str` prints a number. */
  predicate Canonical(s: string)
  {
    IsDigits(s) && (s[0] != '0' || |s| == 1)
  }

  /** Digits that do not start with zero have a positive value. */
  lemma {:induction false} LeadingDigitPositive(s: string)
    requires IsDigits(s) && s[0] != '0'
    ensures DigitsValue(s) > 0
    decreases |s|
  {
    if |s| > 1 {
      LeadingDigitPositive(s[..|s| - 1]);
    }
  }

  /** `str(int(s)) == s` for canonical digits: `int` loses nothing on them. */
  lemma {:induction false} CanonicalRoundTrip(s: string)
    requires Canonical(s)
    ensures Decimal(DigitsValue(s)) == s
    decreases |s|
  {
    var n := DigitsValue(s);
    var last := s[|s| - 1];
    if |s| == 1 {
      assert s[..0] == [];
      assert DigitsValue(s[..0]) == 0;
      assert n == 10 * DigitsValue(s[..0]) + DigitValue(last);
      assert n < 10;
      assert DigitChar(n) == last;
    } else {
      var p := s[..|s| - 1];
      assert IsDigits(p) && p[0] == s[0];
      LeadingDigitPositive(p);
      CanonicalRoundTrip(p);
      assert n == 10 * DigitsValue(p) + DigitValue(last);
      assert n / 10 == DigitsValue(p) && n % 10 == DigitValue(last);
      assert DigitChar(n % 10) == last;
      assert s == p + [last];
    }
  }

  /** Python's `str.lower()` on one character, ASCII letters only. */
  function LowerChar(c: char): char
  {
    if 'A' <= c <= 'Z' then ((c as int) + 32) as char else c
  }

  predicate IsUpper(c: char)
  {
    'A' <= c <= 'Z'
  }

  /**
    `s.lower()` on ASCII text: no capital letter is left, each capital becomes
    its small letter, and every other character stays as it was.
  */
  function Lower(s: string): (r: string)
    ensures |r| == |s|
    ensures forall k :: 0 <= k < |r| ==> !IsUpper(r[k])
    ensures forall k :: 0 <= k < |s| && !IsUpper(s[k]) ==> r[k] == s[k]
    ensures forall k :: 0 <= k < |s| && IsUpper(s[k]) ==> r[k] as int == s[k] as int + 32
  {
    seq(|s|, k requires 0 <= k < |s| => LowerChar(s[k]))
  }

  /** Lower-casing twice is lower-casing once. */
  lemma LowerIdempotent(s: string)
    ensures Lower(Lower(s)) == Lower(s)
  {
  }

  /** The texts that lower-case to `on`: exactly the four spellings of it in either case. */
  lemma LowerOn(s: string)
    ensures Lower(s) == "on" <==> |s| == 2 && (s[0] == 'o' || s[0] == 'O') && (s[1] == 'n' || s[1] == 'N')
  {
    if Lower(s) == "on" {
      assert Lower(s)[0] == 'o' && Lower(s)[1] == 'n';
    }
  }

  /** The texts that lower-case to `off`: `off` with any of its letters capitalised. */
  lemma LowerOff(s: string)
    ensures Lower(s) == "off" <==>
              |s| == 3 && (s[0] == 'o' || s[0] == 'O') && (s[1] == 'f' || s[1] == 'F') && (s[2] == 'f' || s[2] == 'F')
  {
    if Lower(s) == "off" {
      assert Lower(s)[0] == 'o' && Lower(s)[1] == 'f' && Lower(s)[2] == 'f';
    }
  }

  /** Position of the first occurrence of `c` in `s`, if any. */
  function IndexOf(s: string, c: char): (r: Option<nat>)
    ensures r.None? <==> c !in s
    ensures r.Some? ==> r.value < |s| && s[r.value] == c && c !in s[..r.value]
  {
    if s == [] then None
    else if s[0] == c then Some(0)
    else
      assert s == [s[0]] + s[1..];
      match IndexOf(s[1..], c)
      case None => None
      case Some(i) =>
        assert s[..i + 1] == [s[0]] + s[1..][..i];
        Some(i + 1)
  }

  /**
    `s.split(sep, 1)` when it yields two parts: the text before the FIRST
    separator and everything after it. `None` when `sep` does not occur (Python
    then returns a one-element list).
  */
  function SplitOnce(s: string, sep: char): (r: Option<(string, string)>)
    ensures r.None? <==> sep !in s
    ensures r.Some? ==> s == r.value.0 + [sep] + r.value.1 && sep !in r.value.0
  {
    match IndexOf(s, sep)
    case None => None
    case Some(i) =>
      assert s == s[..i] + [sep] + s[i + 1..];
      Some((s[..i], s[i + 1..]))
  }
}

=== FILE: wrappers.dfy ===
/** Optional values shared by the modules of this model. */
module Wrappers {

  /** A value that may be absent: a SQL NULL, a missing row, a `None` argument. */
  datatype Option<+T> = None | Some(value: T)
}
